=== FILE: README.md ===
# Audio sentiment pipeline: a Dafny model

This project models the deterministic core of a small audio-sentiment service:

- **The segment-then-aggregate pipeline** (`experimentation/agentic_workflow_main.py`):
  - `tool_classify_sentiment` labels a text by the sign of a polarity score.
  - `tool_split_audio_on_silence` names the exported chunks `chunk1.wav`, `chunk2.wav`, … under the output directory.
  - `tool_transcribe_and_analyze` transcribes every chunk in order. A chunk the recogniser cannot understand (`UnknownValueError`) is skipped. Any other failure ends the run. Each recognised text gets its own labelled entry, and one closing entry labels the stripped concatenation of all texts.
- **The `/analyze-audio/` endpoint** (`experimentation/api.py`):
  - It rejects names that do not end in `.wav`, ignoring case.
  - It asks the agent for per-segment records and extracts them with the pattern `\*\*Text:\*\*\s*"(.*?)"\s*\*\*Sentiment:\*\*\s*(\w+)`, with the semantics of Python's `re.finditer`: leftmost match, lazy group 1, greedy `\w+`, no overlaps.
  - It cleans each text and joins the texts with single spaces.
  - It asks the agent again for the overall sentiment. It reads the answer with `pattern.search`, and falls back to the first of `positive|negative|neutral`, capitalised, or `Unknown`.
  - It answers 200 with the records plus the aggregate. It answers 400 for a bad file name or for no records, and 500 when the agent raised.

The foreign parts become parameters:

| foreign part | modelled as |
|---|---|
| lexicon polarity (TextBlob) | `polarity: string -> real` |
| speech recogniser | one `Transcription` outcome per chunk (`Recognized`, `Unrecognized`, `OtherFailure`) |
| audio splitter | the number of chunks, or a failure |
| LLM agent graph | `agent: Query -> Reply` |

`Api.AnalyzeAudio` returns the response together with the queries it sent. This makes "no second query is sent" and "the 500 message is the one the last call raised" statable.

Modules:

- `text.dfy`: the Python string operations the code uses, over `seq<char>`:
  - `strip`, `lower`, `capitalize`, `replace('\n', ' ')`;
  - `" ".join`, `endswith`;
  - the decimal rendering of `f"{i}"`;
  - POSIX `os.path.join`.
- `sentiment.dfy`: labels and the classifier.
- `chunking.dfy`: chunk names and paths.
- `pipeline.dfy`: the transcribe-and-analyze loop and a loop-free reference definition of its outcome.
- `record_pattern.dfy`: the regex engine for the record pattern. It holds:
  - a declarative parse predicate;
  - the engine's choice at one position, proved to be the shortest group 1 and the longest group 2;
  - `search` and `finditer`, proved not to skip any match.
- `keywords.dfy`: the keyword fallback.
- `api.dfy`: the endpoint.

Two behaviours of the code worth knowing:

- A transcription failure other than `UnknownValueError` propagates unchanged and does not name the failing chunk.
- The overall reply is searched with the full record pattern, `**Text:**` part included, as the code's comment "same pattern" says. The endpoint prompts the agent for `**Sentiment:** <sentiment>`, but a reply in exactly that form never matches, so its sentiment always comes from the keyword fallback (`Api.RequestedFormatFallsBack`).

## Model

| member | source | states |
|---|---|---|
| Sentiment.LabelOf | experimentation/agentic_workflow_main.py:35-40 | the label is positive exactly when the polarity is above zero, negative exactly when below, neutral exactly at zero |
| Sentiment.LabelName | experimentation/agentic_workflow_main.py:36-40 | a label is spelled "positive" exactly when it is positive, "negative" exactly when negative, "neutral" exactly when neutral |
| Sentiment.LabelNameInjective | experimentation/agentic_workflow_main.py:35-40 | different labels have different spellings |
| Sentiment.ClassifySentiment | experimentation/agentic_workflow_main.py:29-41 | the result echoes the input text, and its label follows the sign of that text's polarity in both directions |
| Text.FirstNonSpace | experimentation/api.py:50 | a greedy `\s*` from `i` consumes only whitespace and stops at the first non-whitespace character or at the end |
| Text.LastNonSpaceEnd | experimentation/api.py:56 | the trailing whitespace run before `j` is all whitespace and is maximal |
| Text.Strip | experimentation/api.py:56 | `strip()` never lengthens a string and leaves no whitespace at either end |
| Text.StripSeparators | experimentation/api.py:56 | the information separators U+001C to U+001F are whitespace to `strip()` and are removed from both ends |
| Text.StripRemovesOnlySpace | experimentation/api.py:77 | `strip()` returns a contiguous piece of its input, with only whitespace before and after it |
| Text.StripCharacterization | experimentation/agentic_workflow_main.py:98 | whenever a string is whitespace, then a core with no outer whitespace, then whitespace, `strip()` returns exactly that core |
| Text.StripIgnoresTrailingSpace | experimentation/agentic_workflow_main.py:95-98 | the trailing space the loop appends after the last text is removed again by `strip()` |
| Text.Lower | experimentation/api.py:20 | `lower()` keeps the length and lower-cases each character on its own, so only ASCII capitals change |
| Text.LowerIdempotent | experimentation/api.py:85 | lower-casing twice equals lower-casing once |
| Text.Capitalize | experimentation/api.py:86 | `capitalize()` keeps the length, upper-cases the first character and lower-cases the rest |
| Text.ReplaceNewlines | experimentation/api.py:56 | `replace('\n', ' ')` keeps the length, turns each line feed into a space and keeps every other character |
| Text.JoinSpace | experimentation/api.py:67 | joining one string gives that string, and joining several starts with the first followed by a space |
| Text.JoinSpaceLength | experimentation/api.py:67 | `" ".join` of n strings has their total length plus n - 1 separators |
| Text.JoinSpaceSnoc | experimentation/agentic_workflow_main.py:95 | joining one more string appends one space and that string |
| Text.DecimalDigits | experimentation/agentic_workflow_main.py:71 | `f"{i}"` is a non-empty digit string without a leading zero |
| Text.DecimalRoundTrip | experimentation/agentic_workflow_main.py:71 | reading the decimal rendering back gives the number |
| Text.DecimalInjective | experimentation/agentic_workflow_main.py:70-71 | different chunk numbers render differently |
| Text.PathJoin | experimentation/api.py:27 | `os.path.join` ends with the joined name, and an absolute name replaces the directory. A relative name is placed under the directory: the result starts with the directory and adds the name plus at most one `/` right after the directory |
| Text.PathJoinInjective | experimentation/agentic_workflow_main.py:71 | under one directory, different relative names give different paths |
| Chunking.ChunkName | experimentation/agentic_workflow_main.py:71 | a chunk name is "chunk", a digit string without a leading zero and ".wav", and the digit string reads back as the chunk number |
| Chunking.ChunkNameInjective | experimentation/agentic_workflow_main.py:71 | different chunk numbers give different file names |
| Chunking.ChunkPath | experimentation/agentic_workflow_main.py:71 | the path of chunk i starts with the output directory and ends with `chunk<i>.wav` |
| Chunking.ChunkPathInjective | experimentation/agentic_workflow_main.py:70-71 | under one output directory, two chunk numbers with the same path are equal |
| Chunking.ChunkPathsDistinct | experimentation/agentic_workflow_main.py:69-73 | a list of consecutive chunk paths has no duplicates, so no export overwrites another |
| Chunking.ChunkPaths | experimentation/agentic_workflow_main.py:69-74 | the loop returns one path per chunk, in order, numbered from 1, pairwise distinct |
| Pipeline.RecognizedIndices | experimentation/agentic_workflow_main.py:88-92 | the kept positions are exactly the recognised chunks, in increasing order |
| Pipeline.RecognizedTexts | experimentation/agentic_workflow_main.py:88-95 | the kept texts are the recognised chunks' texts, in chunk order |
| Pipeline.RecognizedIndicesSnoc | experimentation/agentic_workflow_main.py:88-92 | one more chunk adds its position exactly when it was recognised |
| Pipeline.RecognizedTextsSnoc | experimentation/agentic_workflow_main.py:88-95 | one more chunk adds its text exactly when it was recognised |
| Pipeline.FirstFailureFrom | experimentation/agentic_workflow_main.py:89-92 | the scan finds the first failure other than `UnknownValueError` at or after a position, or reports that none exists |
| Pipeline.FirstFailure | experimentation/agentic_workflow_main.py:89-92 | a failure is reported exactly when some chunk failed otherwise than `UnknownValueError`, and it is the earliest such chunk |
| Pipeline.Expected | experimentation/agentic_workflow_main.py:85-103 | the reference outcome is a failure exactly when some chunk failed otherwise than `UnknownValueError`, and a success lists one entry more than there are recognised texts |
| Pipeline.FirstFailureUnique | experimentation/agentic_workflow_main.py:89-92 | the earliest failing chunk is the one the run stops at |
| Pipeline.ExpectedMeaning | experimentation/agentic_workflow_main.py:85-103 | the run fails exactly when some chunk failed otherwise than `UnknownValueError`, with the first such reason. Otherwise it returns one labelled entry per recognised text, in order, then the aggregate over the stripped combined text |
| Pipeline.SkipStep | experimentation/agentic_workflow_main.py:91-92 | a chunk without recognisable speech contributes nothing |
| Pipeline.RecognizedStep | experimentation/agentic_workflow_main.py:93-95 | a recognised chunk appends its labelled entry, and its text plus one space to the combined text |
| Pipeline.FinalStep | experimentation/agentic_workflow_main.py:97-103 | closing the loop with the stripped combined text yields the expected outcome |
| Pipeline.AnalyzeChunks | experimentation/agentic_workflow_main.py:85-103 | the loop returns exactly the reference outcome: the first failure, or the entries plus the aggregate |
| Pipeline.TranscribeAndAnalyze | experimentation/agentic_workflow_main.py:83-103 | a failed split is propagated. Otherwise the result is the reference outcome for the chunks' transcriptions, taken in path order |
| Pipeline.NothingRecognized | experimentation/agentic_workflow_main.py:88-103 | if no chunk is recognised, no text is kept and the combined text is empty. If moreover no chunk failed otherwise, the result list is the single entry for the empty text, with the label of its polarity, which is also the overall classification |
| Pipeline.MiddleChunkUnrecognized | experimentation/agentic_workflow_main.py:88-100 | with an unrecognised chunk between two non-empty texts that have no outer whitespace, exactly those two texts survive, joined by one space |
| RecordPattern.WordEnd | experimentation/api.py:50 | greedy `\w+` stops at the first non-word character or at the end |
| RecordPattern.TailForced | experimentation/api.py:50 | after the closing quote, both whitespace runs are forced, and group 2 lies inside the longest word run |
| RecordPattern.MatchTail | experimentation/api.py:50 | a tail match lies after the quote and inside the string |
| RecordPattern.MatchTailCorrect | experimentation/api.py:50 | the tail succeeds exactly when some tail parse exists, and then group 2 is a maximal word run |
| RecordPattern.Close | experimentation/api.py:50 | a match found by the lazy group starts where the record began and closes at or after the current position, with ordered group bounds inside the string |
| RecordPattern.CloseNone | experimentation/api.py:50 | if the lazy group never closes, no later quote has a matching tail |
| RecordPattern.CloseSome | experimentation/api.py:50 | the lazy group closes at the first quote whose tail matches |
| RecordPattern.HeadForced | experimentation/api.py:50 | the whitespace before the opening quote is forced |
| RecordPattern.MatchAt | experimentation/api.py:49-52 | a match tried at p starts at p and has ordered group bounds inside the string |
| RecordPattern.MatchAtComplete | experimentation/api.py:49-52 | whenever the pattern can match at p, the engine finds a match at p |
| RecordPattern.MatchAtSound | experimentation/api.py:49-52 | a match the engine finds is a parse, with the shortest group 1 and the longest group 2 |
| RecordPattern.MatchAtCorrect | experimentation/api.py:49-52 | the engine matches at p exactly when the pattern can, and then picks the shortest group 1 and the longest group 2 |
| RecordPattern.NoMatchMeansNoParse | experimentation/api.py:55 | where the engine finds nothing, no parse of the pattern exists |
| RecordPattern.Search | experimentation/api.py:80 | `search` returns a match the engine finds at its start position, at or after where searching began |
| RecordPattern.SearchLeftmost | experimentation/api.py:80 | `search` returns the leftmost match, and reports none only when none exists |
| RecordPattern.FindAll | experimentation/api.py:55 | `finditer` yields engine matches from left to right without overlap |
| RecordPattern.FindAllFirst | experimentation/api.py:55 | no match starts before the first one yielded, and none at all when nothing is yielded |
| RecordPattern.FindAllLast | experimentation/api.py:55 | no match starts after the end of the last one yielded |
| RecordPattern.FindAllGaps | experimentation/api.py:55 | no match starts between two consecutive yielded matches |
| Keywords.KeywordWord | experimentation/api.py:85 | the alternation reports the keyword that actually occurs there |
| Keywords.FirstKeyword | experimentation/api.py:85 | the first `findall` hit is the leftmost keyword occurrence, and there is none when it reports none |
| Keywords.CapitalizeLowerWord | experimentation/api.py:86 | capitalising a lower-case word upper-cases only its first letter |
| Keywords.CapitalizedKeywords | experimentation/api.py:86 | the three keywords are reported as "Positive", "Negative", "Neutral" |
| Keywords.FallbackSentiment | experimentation/api.py:84-86 | the fallback answers "Unknown" exactly when no keyword occurs. Otherwise it answers the leftmost keyword of the lower-cased reply, capitalised |
| Keywords.FallbackIgnoresCase | experimentation/api.py:85 | the fallback is case-insensitive in the reply |
| Api.IsWavName | experimentation/api.py:20 | a name passes exactly when its last four characters, lower-cased, are ".wav" |
| Api.IsWavNameCharacterization | experimentation/api.py:20 | a name is accepted exactly when it ends in a dot and w, a, v, each letter in either case |
| Api.WavNameExamples | experimentation/api.py:20-24 | "A.WAV" is accepted and "a.mp3" is not |
| Api.Clean | experimentation/api.py:56 | a cleaned text has no line feed and no outer whitespace. It has the stripped text's length, and each line feed of the stripped text has become a space while every other character is kept |
| Api.CleanIdempotent | experimentation/api.py:56 | cleaning a cleaned text changes nothing |
| Api.StripWord | experimentation/api.py:57 | stripping a `\w+` group changes nothing |
| Api.FoundWords | experimentation/api.py:50-57 | the sentiment group of every match is a non-empty run of word characters |
| Api.ToRecord | experimentation/api.py:56-58 | the record of one match has a text without line feeds or outer whitespace, no longer than group 1, and carries group 2 unchanged when it is a word |
| Api.ExtractRecords | experimentation/api.py:54-58 | one record per `finditer` match, in order. Each record holds the cleaned group 1 and the unchanged group 2, which is a word |
| Api.FallbackAnswerIsWord | experimentation/api.py:86 | every fallback answer is a single word |
| Api.OverallSentiment | experimentation/api.py:77-86 | the overall sentiment is group 2 of the leftmost record in the stripped reply, else the keyword fallback. Either way it is a word |
| Api.NoTextTagFallsBack | experimentation/api.py:80-86 | a stripped reply without a `**Text:**` tag is answered by the keyword fallback |
| Api.RequestedFormatFallsBack | experimentation/api.py:70-86 | a reply in exactly the requested `**Sentiment:** <word>` form is answered by the keyword fallback, so the answer is one of Positive, Negative, Neutral, Unknown whatever the word was (`Mixed` gives `Unknown`) |
| Api.AnalyzeAudio | experimentation/api.py:16-96 | a bad file name gives 400 with the fixed message and sends no query. Otherwise the first query names the saved upload and the chunk directory. Every response is 200, 400 or 500, and it is 200 exactly when it carries results |
| Api.AnalyzeUpload | experimentation/api.py:41-96 | after the name check, the first query is the one given; every answer is 200, 400 or 500, 200 exactly when it carries results, and a 400 is the "no segments" answer |
| Api.UploadServerError | experimentation/api.py:41-96 | after the name check, the answer is 500 exactly when one of the agent calls raised |
| Api.ServerErrorOutcome | experimentation/api.py:92-96 | the answer is 500 exactly when one of the agent calls raised |
| Api.ServerErrorMessage | experimentation/api.py:92-96 | a 500 answer carries "An error occurred: " followed by the message of the last call, the one that raised |
| Api.NoSegmentsOutcome | experimentation/api.py:60-64 | the "no segments" 400 is given exactly when the name passed and the first reply holds no record. Then no second query is sent |
| Api.SuccessOutcome | experimentation/api.py:66-90 | a 200 answer follows exactly two queries, the second asking about the joined record texts. Its list is the extracted records plus an aggregate of that joined text and the second reply's overall sentiment |
| Api.AggregateWellFormed | experimentation/api.py:88 | closing cleaned records with their aggregate gives a well-formed result list |
| Api.SuccessfulResponseShape | experimentation/api.py:54-90 | every 200 list is well formed: at least one segment record, each text cleaned, each sentiment a word, and the last text the others joined by spaces |

## Left out

- Character classes are ASCII only: whitespace for `strip()` and `\s` is the ten ASCII characters `str.isspace()` accepts (space, tab to carriage return, U+001C to U+001F), `\w` is `[A-Za-z0-9_]`, and `lower()`/`capitalize()` change ASCII letters only. Python's Unicode tables (U+0085, U+00A0 and the other non-ASCII spaces, letters and digits) are not modelled.
- `os.path.join` is modelled as POSIX `posixpath.join` only: `/` separators, and a name starting with `/` is absolute. Windows `ntpath.join` (backslashes, drive letters) is not modelled.
- The polarity score is a real number supplied by a parameter. TextBlob's lexicon and its floating-point arithmetic are outside the model.
- `tool_transcribe_audio` and the speech recogniser are foreign calls. Each chunk's outcome is an input.
- `split_on_silence` is a foreign call, and with it the split parameters (500 ms silence, threshold 14 dB below the mean, 500 ms kept). It is modelled as a chunk count or a decoding failure.
- All file I/O is left out: creating the output directory, exporting the chunks, the temporary directory and saving the upload.
- The LLM and the agent graph (the Azure chat model, tool binding, the state graph) are a parameter `agent: Query -> Reply`. The model does not include:
  - the system message;
  - the memory checkpointer. It is module-global and every request uses the fixed thread id "audio_run_1", so the conversation history persists across requests and not just across the two calls of one request. The agent's answers may therefore depend on earlier requests, which is why `agent` is a parameter of each request rather than a fixed function;
  - how the agent chooses tools.
- Api.AnalyzeAudio: queries are structured values (the upload path and chunk directory, or the combined text), not the exact prompt strings.
- Api.AnalyzeAudio: only exceptions from the agent calls lead to 500. Other exceptions inside the `try`, such as a reply without `content`, are not modelled. Failures while saving the upload, which happen before the `try`, are not modelled either.
- Api.AnalyzeAudio: the HTTP layer is reduced to a status code and a body. That covers FastAPI, the `async` upload read, the JSON encoding, the debug `print` and the `uvicorn` entry point.
- Pipeline.AnalyzeChunks: result entries carry a `Label` rather than its spelling. `Sentiment.LabelName` gives the spelling, and `Sentiment.LabelNameInjective` shows that nothing is lost.
- The agent graph construction in `agentic_workflow_main.py` after the tools is not part of this model, and neither is `experimentation/app_streamlit.py` (a UI).

=== FILE: api.dfy ===
/**
 The `/analyze-audio/` endpoint. The agent graph behind it is outside this
 model: it is a function from the query the endpoint sends to the reply it
 gets back (the final message's content, or the exception it raised). The
 endpoint checks the file name, asks the agent for per-segment records,
 extracts them with the record pattern, asks again for the overall sentiment
 of the joined texts, and answers with the records followed by one aggregate.
 */
module Api {
  import opened Wrappers
  import opened Text
  import opened RecordPattern
  import opened Keywords

  /** The agent's answer to one query: the last message's content, or the exception raised. */
  datatype Reply = Replied(content: string) | Raised(message: string)

  /** The two queries the endpoint sends the agent. */
  datatype Query =
    | TranscribeQuery(audioPath: string, outputDir: string)
    | OverallQuery(combinedText: string)

  /** One entry of the response's `results` list. */
  datatype Record = Record(text: string, sentiment: string)

  /** The JSON body: a result list or an error message. */
  datatype Body = Results(records: seq<Record>) | ErrorMessage(message: string)

  datatype Response = Response(status: int, body: Body)

  /** A response together with the queries the endpoint sent to produce it, in order. */
  datatype Exchange = Exchange(response: Response, queries: seq<Query>)

  const WavOnly: string := "Only WAV audio files are supported."
  // Built from two literals only so that the prover can index into it.
  const NoSegments: string := "No segments could be processed" + " from the audio"
  const ErrorPrefix: string := "An error occurred: "

  /** The upload check: the lower-cased file name ends in ".wav". Only the last four characters matter. */
  function IsWavName(filename: string): (b: bool)
    ensures b <==> |filename| >= 4 && Lower(filename[|filename| - 4..]) == ".wav"
  {
    var l := Lower(filename);
    assert |filename| >= 4 ==> l[|filename| - 4..] == Lower(filename[|filename| - 4..]);
    EndsWith(l, ".wav")
  }

  /** The check is the extension ".wav" in any mix of letter cases. */
  lemma IsWavNameCharacterization(f: string)
    ensures IsWavName(f) <==>
      && |f| >= 4
      && f[|f| - 4] == '.'
      && (f[|f| - 3] == 'w' || f[|f| - 3] == 'W')
      && (f[|f| - 2] == 'a' || f[|f| - 2] == 'A')
      && (f[|f| - 1] == 'v' || f[|f| - 1] == 'V')
  {
    var l := Lower(f);
    if |f| >= 4 {
      var n := |f|;
      assert l[n - 4..] == [l[n - 4], l[n - 3], l[n - 2], l[n - 1]];
      assert ".wav" == ['.', 'w', 'a', 'v'];
    }
  }

  /** An upper-case extension is accepted and a different one is not. */
  lemma WavNameExamples()
    ensures IsWavName("A.WAV")
    ensures !IsWavName("a.mp3")
  {
    IsWavNameCharacterization("A.WAV");
    IsWavNameCharacterization("a.mp3");
  }

  /** `text.strip().replace('\n', ' ')`: the clean-up applied to each extracted text. */
  function Clean(t: string): (r: string)
    ensures '\n' !in r
    ensures NoOuterSpace(r)
    ensures |r| == |Strip(t)|
    ensures forall i :: 0 <= i < |r| ==> r[i] == (if Strip(t)[i] == '\n' then ' ' else Strip(t)[i])
  {
    ReplaceNewlines(Strip(t))
  }

  /** A cleaned text is left alone by a second clean-up. */
  lemma CleanIdempotent(t: string)
    ensures Clean(Clean(t)) == Clean(t)
  {
    var r := Clean(t);
    assert r[0..|r|] == r;
    StripCharacterization(r, 0, |r|);
    assert ReplaceNewlines(r) == r;
  }

  /** A word has no whitespace to strip. */
  lemma StripWord(w: string)
    requires IsWord(w)
    ensures Strip(w) == w
  {
    assert w[0..|w|] == w;
    assert IsWordChar(w[0]) && IsWordChar(w[|w| - 1]);
    StripCharacterization(w, 0, |w|);
  }

  /** The sentiment group of every reported match is a word. */
  lemma FoundWords(s: string, ms: seq<RecordMatch>)
    requires forall i :: 0 <= i < |ms| ==> Found(s, ms[i])
    ensures forall i :: 0 <= i < |ms| ==> ms[i].wordStart <= ms[i].end <= |s| && IsWord(s[ms[i].wordStart..ms[i].end])
  {
    forall i | 0 <= i < |ms|
      ensures ms[i].wordStart <= ms[i].end <= |s| && IsWord(s[ms[i].wordStart..ms[i].end])
    {
      var m := ms[i];
      MatchAtSound(s, m.start);
      assert Words(s, m.wordStart, m.end);
    }
  }

  /** The record built from one match: cleaned group 1 and stripped group 2. */
  function ToRecord(s: string, m: RecordMatch): (r: Record)
    requires m.textStart <= m.textEnd <= m.wordStart <= m.end <= |s|
    ensures '\n' !in r.text && NoOuterSpace(r.text)
    ensures |r.text| <= m.textEnd - m.textStart
    ensures IsWord(s[m.wordStart..m.end]) ==> r.sentiment == s[m.wordStart..m.end]
  {
    assert IsWord(s[m.wordStart..m.end]) ==> Strip(s[m.wordStart..m.end]) == s[m.wordStart..m.end] by {
      if IsWord(s[m.wordStart..m.end]) {
        StripWord(s[m.wordStart..m.end]);
      }
    }
    Record(Clean(s[m.textStart..m.textEnd]), Strip(s[m.wordStart..m.end]))
  }

  /**
   The loop over `pattern.finditer(reply)`: one record per match, in the order
   the matches occur, each text cleaned and each sentiment a word.
   */
  function ExtractRecords(reply: string): (rs: seq<Record>)
    ensures |rs| == |FindAll(reply, 0)|
    ensures forall i :: 0 <= i < |rs| ==>
      var m := FindAll(reply, 0)[i];
      rs[i] == Record(Clean(reply[m.textStart..m.textEnd]), reply[m.wordStart..m.end])
    ensures forall i :: 0 <= i < |rs| ==> '\n' !in rs[i].text && NoOuterSpace(rs[i].text) && IsWord(rs[i].sentiment)
  {
    var ms := FindAll(reply, 0);
    FoundWords(reply, ms);
    var rs := seq(|ms|, i requires 0 <= i < |ms| => ToRecord(reply, ms[i]));
    assert forall i :: 0 <= i < |ms| ==> Strip(reply[ms[i].wordStart..ms[i].end]) == reply[ms[i].wordStart..ms[i].end] by {
      forall i | 0 <= i < |ms| {
        StripWord(reply[ms[i].wordStart..ms[i].end]);
      }
    }
    rs
  }

  /** The texts of a record list, in order. */
  function Texts(rs: seq<Record>): (ts: seq<string>)
    ensures |ts| == |rs|
    ensures forall i :: 0 <= i < |rs| ==> ts[i] == rs[i].text
  {
    seq(|rs|, i requires 0 <= i < |rs| => rs[i].text)
  }

  /** Each fallback answer is a single word. */
  lemma FallbackAnswerIsWord(a: string)
    requires IsFallbackAnswer(a)
    ensures IsWord(a)
  {
    assert forall k :: 0 <= k < |a| ==> IsWordChar(a[k]);
  }

  /**
   The overall sentiment taken from the agent's second reply (stripped): the
   sentiment of the leftmost record in it when there is one, otherwise the
   keyword fallback. Either way it is a single word.
   */
  function OverallSentiment(reply: string): (r: string)
    ensures IsWord(r)
    ensures Search(Strip(reply), 0).Some? ==>
      var m := Search(Strip(reply), 0).value;
      r == Strip(reply)[m.wordStart..m.end]
    ensures Search(Strip(reply), 0).None? ==> r == FallbackSentiment(Strip(reply)) && IsFallbackAnswer(r)
  {
    var content := Strip(reply);
    match Search(content, 0)
    case Some(m) =>
      assert Found(content, m);
      FoundWords(content, [m]);
      assert [m][0] == m;
      StripWord(content[m.wordStart..m.end]);
      Strip(content[m.wordStart..m.end])
    case None =>
      var r := FallbackSentiment(content);
      FallbackAnswerIsWord(r);
      r
  }

  /**
   The overall reply is searched with the whole record pattern, so a reply
   without a `**Text:**` tag, such as one in the requested
   `**Sentiment:** <sentiment>` form, always falls back to the keyword scan.
   */
  lemma NoTextTagFallsBack(reply: string)
    requires forall p: nat :: !HasPrefixAt(Strip(reply), p, TextTag)
    ensures OverallSentiment(reply) == FallbackSentiment(Strip(reply))
  {
    var c := Strip(reply);
    assert Search(c, 0).Some? ==> MatchAt(c, Search(c, 0).value.start).Some?;
  }

  /**
   A reply in exactly the requested `**Sentiment:** <word>` form is not read
   by the pattern: the answer comes from the keyword scan, so it is one of the
   four fallback answers whatever the word was.
   */
  lemma RequestedFormatFallsBack(w: string)
    requires IsWord(w)
    ensures OverallSentiment("**Sentiment:** " + w) == FallbackSentiment("**Sentiment:** " + w)
    ensures IsFallbackAnswer(OverallSentiment("**Sentiment:** " + w))
  {
    var pre := "**Sentiment:** ";
    var s := pre + w;
    assert s[0..|s|] == s;
    assert s[|s| - 1] == w[|w| - 1];
    StripCharacterization(s, 0, |s|);
    forall p: nat
      ensures !HasPrefixAt(s, p, TextTag)
    {
      if p + |TextTag| <= |s| {
        var t := s[p..p + |TextTag|];
        if p >= |pre| {
          assert t[0] == w[p - |pre|];
        } else if p + 2 >= |pre| {
          assert t[1] == s[p + 1];
        } else {
          assert t[2] == pre[p + 2];
        }
      }
    }
    NoTextTagFallsBack(s);
  }

  /**
   `analyze_audio`: the response to one upload named `filename`, saved under
   the temporary directory `tmpdir`, when the agent answers queries with `agent`.
   */
  function AnalyzeAudio(filename: string, tmpdir: string, agent: Query -> Reply): (x: Exchange)
    ensures !IsWavName(filename) <==> x.response == Response(400, ErrorMessage(WavOnly))
    ensures !IsWavName(filename) ==> x.queries == []
    ensures IsWavName(filename) ==>
      |x.queries| > 0 && x.queries[0] == TranscribeQuery(PathJoin(tmpdir, filename), PathJoin(tmpdir, "chunks"))
    ensures x.response.status == 200 || x.response.status == 400 || x.response.status == 500
    ensures x.response.status == 200 <==> x.response.body.Results?
  {
    if !IsWavName(filename) then
      Exchange(Response(400, ErrorMessage(WavOnly)), [])
    else
      AnalyzeUpload(TranscribeQuery(PathJoin(tmpdir, filename), PathJoin(tmpdir, "chunks")), agent)
  }

  /**
   The part of `analyze_audio` after the file name passed: ask the agent with
   `first`, extract the records, then ask for the overall sentiment.
   */
  function AnalyzeUpload(first: Query, agent: Query -> Reply): (x: Exchange)
    ensures |x.queries| > 0 && x.queries[0] == first
    ensures x.response.status == 200 || x.response.status == 400 || x.response.status == 500
    ensures x.response.status == 200 <==> x.response.body.Results?
    ensures x.response.status == 400 ==> x.response.body == ErrorMessage(NoSegments)
  {
    match agent(first)
    case Raised(e) =>
      Exchange(Response(500, ErrorMessage(ErrorPrefix + e)), [first])
    case Replied(content) =>
      var records := ExtractRecords(content);
      if |records| == 0 then
        Exchange(Response(400, ErrorMessage(NoSegments)), [first])
      else
        var second := OverallQuery(JoinSpace(Texts(records)));
        match agent(second)
        case Raised(e) =>
          Exchange(Response(500, ErrorMessage(ErrorPrefix + e)), [first, second])
        case Replied(overall) =>
          var aggregate := Record(JoinSpace(Texts(records)), OverallSentiment(overall));
          Exchange(Response(200, Results(records + [aggregate])), [first, second])
  }

  /** Some query among `qs` made the agent raise. */
  predicate SomeRaised(agent: Query -> Reply, qs: seq<Query>) {
    exists q :: q in qs && agent(q).Raised?
  }

  /** A 500 answer is given exactly when one of the agent calls raised. */
  lemma ServerErrorOutcome(filename: string, tmpdir: string, agent: Query -> Reply)
    ensures var x := AnalyzeAudio(filename, tmpdir, agent);
      x.response.status == 500 <==> SomeRaised(agent, x.queries)
  {
    if IsWavName(filename) {
      UploadServerError(TranscribeQuery(PathJoin(tmpdir, filename), PathJoin(tmpdir, "chunks")), agent);
    }
  }

  /** After the name check, a 500 answer is given exactly when one of the agent calls raised. */
  lemma UploadServerError(first: Query, agent: Query -> Reply)
    ensures var x := AnalyzeUpload(first, agent);
      x.response.status == 500 <==> SomeRaised(agent, x.queries)
  {
    var x := AnalyzeUpload(first, agent);
    if agent(first).Raised? {
      assert agent(x.queries[0]).Raised?;
    } else if |ExtractRecords(agent(first).content)| > 0 {
      assert agent(x.queries[1]).Raised? <==> x.response.status == 500;
    }
  }

  /** A 500 answer carries the message of the call that raised, which is the last one made. */
  lemma ServerErrorMessage(filename: string, tmpdir: string, agent: Query -> Reply)
    ensures var x := AnalyzeAudio(filename, tmpdir, agent);
      x.response.status == 500 ==>
        |x.queries| > 0 && x.response.body == ErrorMessage(ErrorPrefix + agent(x.queries[|x.queries| - 1]).message)
  {
  }

  /**
   The "no segments" 400 answer is given exactly when the file name passed and
   the agent's first reply holds no record; no second query is sent then.
   */
  lemma NoSegmentsOutcome(filename: string, tmpdir: string, agent: Query -> Reply)
    ensures
      var x := AnalyzeAudio(filename, tmpdir, agent);
      && (x.response.body == ErrorMessage(NoSegments) <==>
            IsWavName(filename) && agent(x.queries[0]).Replied? && ExtractRecords(agent(x.queries[0]).content) == [])
      && (x.response.body == ErrorMessage(NoSegments) ==> |x.queries| == 1)
  {
    assert NoSegments[0] == 'N' && WavOnly[0] == 'O';
    assert forall e :: (ErrorPrefix + e)[0] == 'A';
  }

  /**
   A 200 answer holds the records of the first reply, at least one, followed
   by the aggregate: their texts joined by spaces, and the overall sentiment of
   the second reply, which was asked about exactly that joined text.
   */
  lemma SuccessOutcome(filename: string, tmpdir: string, agent: Query -> Reply)
    ensures
      var x := AnalyzeAudio(filename, tmpdir, agent);
      x.response.status == 200 ==>
        var records := ExtractRecords(agent(x.queries[0]).content);
        var combined := JoinSpace(Texts(records));
        && |records| > 0
        && x.queries == [x.queries[0], OverallQuery(combined)]
        && agent(x.queries[1]).Replied?
        && x.response.body.records == records + [Record(combined, OverallSentiment(agent(x.queries[1]).content))]
  {
  }

  /** A result list is well formed: segment records, then one aggregate over their texts; every sentiment a word. */
  ghost predicate WellFormedResults(rs: seq<Record>) {
    && |rs| >= 2
    && rs[|rs| - 1].text == JoinSpace(Texts(rs[..|rs| - 1]))
    && (forall i :: 0 <= i < |rs| - 1 ==> '\n' !in rs[i].text && NoOuterSpace(rs[i].text))
    && (forall i :: 0 <= i < |rs| ==> IsWord(rs[i].sentiment))
  }

  /** Closing cleaned segment records with their aggregate yields a well-formed result list. */
  lemma AggregateWellFormed(records: seq<Record>, overall: string)
    requires |records| > 0 && IsWord(overall)
    requires forall i :: 0 <= i < |records| ==> '\n' !in records[i].text && NoOuterSpace(records[i].text) && IsWord(records[i].sentiment)
    ensures WellFormedResults(records + [Record(JoinSpace(Texts(records)), overall)])
  {
    var rs := records + [Record(JoinSpace(Texts(records)), overall)];
    assert rs[..|rs| - 1] == records;
    forall i | 0 <= i < |rs|
      ensures IsWord(rs[i].sentiment)
    {
      if i < |records| {
        assert rs[i] == records[i];
      }
    }
  }

  /**
   Read off a successful response alone: at least one segment record, every
   segment text cleaned, every sentiment a word, and a last record whose text
   is the segment texts joined by single spaces.
   */
  lemma SuccessfulResponseShape(filename: string, tmpdir: string, agent: Query -> Reply)
    ensures var x := AnalyzeAudio(filename, tmpdir, agent);
      x.response.status == 200 ==> WellFormedResults(x.response.body.records)
  {
    var x := AnalyzeAudio(filename, tmpdir, agent);
    if x.response.status == 200 {
      SuccessOutcome(filename, tmpdir, agent);
      var records := ExtractRecords(agent(x.queries[0]).content);
      AggregateWellFormed(records, OverallSentiment(agent(x.queries[1]).content));
    }
  }
}

=== FILE: chunking.dfy ===
/**
 The file names `tool_split_audio_on_silence` gives the chunks it exports.
 Splitting the audio itself is done by a library outside this model; only the
 number of chunks it produced matters here.
 */
module Chunking {
  import opened Text

  /** `f"chunk{i}.wav"`. */
  function ChunkName(i: nat): (n: string)
    ensures |n| >= 10 && n[..5] == "chunk" && EndsWith(n, ".wav")
    ensures (forall k :: 5 <= k < |n| - 4 ==> IsDigit(n[k])) && ParseDecimal(n[5..|n| - 4]) == i
    ensures |n| > 10 ==> n[5] != '0'
  {
    var d := DecimalDigits(i);
    var n := "chunk" + d + ".wav";
    assert n[5..|n| - 4] == d;
    DecimalRoundTrip(i);
    n
  }

  /** Different chunk numbers give different file names. */
  lemma ChunkNameInjective(i: nat, j: nat)
    requires ChunkName(i) == ChunkName(j)
    ensures i == j
  {
  }

  /** Under one output directory, different chunk numbers give different paths. */
  lemma ChunkPathInjective(outputDir: string, i: nat, j: nat)
    requires PathJoin(outputDir, ChunkName(i)) == PathJoin(outputDir, ChunkName(j))
    ensures i == j
  {
    var x, y := ChunkName(i), ChunkName(j);
    assert x[0] == 'c' && y[0] == 'c';
    PathJoinInjective(outputDir, x, y);
    ChunkNameInjective(i, j);
  }

  /** The path of chunk `i` (numbered from 1) under `outputDir`. */
  function ChunkPath(outputDir: string, i: nat): (p: string)
    ensures EndsWith(p, ChunkName(i))
    ensures outputDir <= p
  {
    PathJoin(outputDir, ChunkName(i))
  }

  /** Paths of distinct chunks are distinct. */
  lemma ChunkPathsDistinct(outputDir: string, paths: seq<string>)
    requires forall k :: 0 <= k < |paths| ==> paths[k] == ChunkPath(outputDir, k + 1)
    ensures forall i, j :: 0 <= i < j < |paths| ==> paths[i] != paths[j]
  {
    forall i, j | 0 <= i < j < |paths|
      ensures paths[i] != paths[j]
    {
      ChunkPathsDiffer(outputDir, i + 1, j + 1);
    }
  }

  /** Lemma helper: two different chunk numbers have different paths. */
  lemma ChunkPathsDiffer(outputDir: string, i: nat, j: nat)
    requires i != j
    ensures ChunkPath(outputDir, i) != ChunkPath(outputDir, j)
  {
    if ChunkPath(outputDir, i) == ChunkPath(outputDir, j) {
      ChunkPathInjective(outputDir, i, j);
    }
  }

  /**
   The paths of the exported chunks, in chunk order: the loop over
   `enumerate(chunks, start=1)` joining `output_dir` with `chunk<i>.wav`.
   */
  method ChunkPaths(outputDir: string, chunkCount: nat) returns (paths: seq<string>)
    ensures |paths| == chunkCount
    ensures forall i :: 0 <= i < chunkCount ==> paths[i] == ChunkPath(outputDir, i + 1)
    ensures forall i, j :: 0 <= i < j < chunkCount ==> paths[i] != paths[j]
  {
    paths := [];
    var i := 1;
    while i <= chunkCount
      invariant 1 <= i <= chunkCount + 1
      invariant |paths| == i - 1
      invariant forall k :: 0 <= k < i - 1 ==> paths[k] == ChunkPath(outputDir, k + 1)
    {
      paths := paths + [ChunkPath(outputDir, i)];
      i := i + 1;
    }
    ChunkPathsDistinct(outputDir, paths);
  }
}

=== FILE: keywords.dfy ===
/**
 The fallback of the endpoint when the overall-sentiment reply has no record:
 `re.findall(r'positive|negative|neutral', content.lower())`, first hit,
 capitalised, else `"Unknown"`.
 */
module Keywords {
  import opened Wrappers
  import opened Text

  /** One of the three alternatives starts at `i`. */
  predicate KeywordAt(s: string, i: nat) {
    HasPrefixAt(s, i, "positive") || HasPrefixAt(s, i, "negative") || HasPrefixAt(s, i, "neutral")
  }

  /** The alternative that matches at `i`, tried in the pattern's order. */
  function KeywordWord(s: string, i: nat): (w: string)
    requires KeywordAt(s, i)
    ensures w == "positive" || w == "negative" || w == "neutral"
    ensures HasPrefixAt(s, i, w)
  {
    if HasPrefixAt(s, i, "positive") then "positive"
    else if HasPrefixAt(s, i, "negative") then "negative"
    else "neutral"
  }

  /** The leftmost position at or after `i` where a keyword starts. */
  function FirstKeyword(s: string, i: nat): (r: Option<nat>)
    ensures r.Some? ==> i <= r.value && KeywordAt(s, r.value)
    ensures r.Some? ==> forall j :: i <= j < r.value ==> !KeywordAt(s, j)
    ensures r.None? ==> forall j :: i <= j ==> !KeywordAt(s, j)
    decreases |s| - i
  {
    if i >= |s| then None
    else if KeywordAt(s, i) then Some(i)
    else FirstKeyword(s, i + 1)
  }

  /** The four answers the fallback can give. */
  predicate IsFallbackAnswer(a: string) {
    a == "Positive" || a == "Negative" || a == "Neutral" || a == "Unknown"
  }

  /** Capitalising a word of lower-case letters upper-cases its first letter only. */
  lemma CapitalizeLowerWord(w: string)
    requires |w| > 0 && forall k :: 0 <= k < |w| ==> 'a' <= w[k] <= 'z'
    ensures Capitalize(w) == [UpperChar(w[0])] + w[1..]
  {
    assert Lower(w[1..]) == w[1..];
  }

  /** The three keywords as the fallback reports them. */
  lemma CapitalizedKeywords()
    ensures Capitalize("positive") == "Positive"
    ensures Capitalize("negative") == "Negative"
    ensures Capitalize("neutral") == "Neutral"
  {
    CapitalizeLowerWord("positive");
    assert "Positive" == ['P'] + "positive"[1..];
    CapitalizeLowerWord("negative");
    assert "Negative" == ['N'] + "negative"[1..];
    CapitalizeLowerWord("neutral");
    assert "Neutral" == ['N'] + "neutral"[1..];
  }

  /** The first keyword of the lower-cased reply, capitalised, or `"Unknown"` when there is none. */
  function FallbackSentiment(content: string): (r: string)
    ensures IsFallbackAnswer(r)
    ensures r == "Unknown" <==> forall j :: 0 <= j ==> !KeywordAt(Lower(content), j)
    ensures r != "Unknown" ==>
      exists p :: 0 <= p && KeywordAt(Lower(content), p) && r == Capitalize(KeywordWord(Lower(content), p))
               && forall j :: 0 <= j < p ==> !KeywordAt(Lower(content), j)
  {
    var lowered := Lower(content);
    match FirstKeyword(lowered, 0)
    case Some(p) =>
      var w := KeywordWord(lowered, p);
      CapitalizedKeywords();
      Capitalize(w)
    case None => "Unknown"
  }

  /** The fallback reads the reply case-insensitively: lower-casing it first changes nothing. */
  lemma FallbackIgnoresCase(content: string)
    ensures FallbackSentiment(Lower(content)) == FallbackSentiment(content)
  {
    LowerIdempotent(content);
  }
}

=== FILE: pipeline.dfy ===
/**
 The segment-then-aggregate coordinator `tool_transcribe_and_analyze`: every
 chunk is transcribed in order, chunks with no recognisable speech are skipped,
 every recognised text is labelled, and one aggregate entry over the combined
 text closes the result list. The speech recogniser is outside this model; its
 outcome per chunk is the input.
 */
module Pipeline {
  import opened Wrappers
  import opened Text
  import opened Sentiment
  import opened Chunking

  /**
   What transcribing one chunk produced: text, the recogniser's
   `UnknownValueError`, or any other exception (with its message).
   */
  datatype Transcription = Recognized(text: string) | Unrecognized | OtherFailure(reason: string)

  /** One entry of the result list: a text and its label. */
  datatype Entry = Entry(text: string, sentiment: Label)

  /** The tool's return value: the result list and the overall classification. */
  datatype Analysis = Analysis(results: seq<Entry>, overall: Classification)

  /** The positions of the recognised chunks, in increasing order. */
  function RecognizedIndices(outcomes: seq<Transcription>): (r: seq<nat>)
    ensures forall k :: 0 <= k < |r| ==> r[k] < |outcomes| && outcomes[r[k]].Recognized?
    ensures forall k, l :: 0 <= k < l < |r| ==> r[k] < r[l]
    ensures forall i :: 0 <= i < |outcomes| && outcomes[i].Recognized? ==> i in r
  {
    if |outcomes| == 0 then []
    else
      var n := |outcomes| - 1;
      var front := RecognizedIndices(outcomes[..n]);
      if outcomes[n].Recognized? then front + [n] else front
  }

  /** The recognised texts, in chunk order. */
  function RecognizedTexts(outcomes: seq<Transcription>): (ts: seq<string>)
    ensures |ts| == |RecognizedIndices(outcomes)|
    ensures forall k :: 0 <= k < |ts| ==> ts[k] == outcomes[RecognizedIndices(outcomes)[k]].text
  {
    var idx := RecognizedIndices(outcomes);
    seq(|idx|, k requires 0 <= k < |idx| => outcomes[idx[k]].text)
  }

  /** Extending the chunk list by one outcome extends the recognised positions by at most its position. */
  lemma RecognizedIndicesSnoc(outcomes: seq<Transcription>, t: Transcription)
    ensures RecognizedIndices(outcomes + [t])
         == RecognizedIndices(outcomes) + (if t.Recognized? then [|outcomes|] else [])
  {
    assert (outcomes + [t])[..|outcomes|] == outcomes;
  }

  /** Extending the chunk list by one outcome extends the recognised texts by at most that text. */
  lemma RecognizedTextsSnoc(outcomes: seq<Transcription>, t: Transcription)
    ensures RecognizedTexts(outcomes + [t])
         == RecognizedTexts(outcomes) + (if t.Recognized? then [t.text] else [])
  {
    var o := outcomes + [t];
    RecognizedIndicesSnoc(outcomes, t);
    var a, b := RecognizedIndices(o), RecognizedIndices(outcomes);
    var x, y := RecognizedTexts(o), RecognizedTexts(outcomes) + (if t.Recognized? then [t.text] else []);
    assert |x| == |y|;
    forall k | 0 <= k < |x|
      ensures x[k] == y[k]
    {
      if k < |b| {
        assert a[k] == b[k] && o[a[k]] == outcomes[b[k]];
      } else {
        assert a[k] == |outcomes|;
      }
    }
  }

  /** Each text paired with its own label. */
  function Labelled(ts: seq<string>, polarity: string -> real): (es: seq<Entry>)
    ensures |es| == |ts|
    ensures forall k :: 0 <= k < |ts| ==> es[k] == Entry(ts[k], LabelOf(polarity(ts[k])))
  {
    seq(|ts|, k requires 0 <= k < |ts| => Entry(ts[k], LabelOf(polarity(ts[k]))))
  }

  /** The first chunk whose transcription failed with something other than `UnknownValueError` is at `i`. */
  predicate FirstOtherFailure(outcomes: seq<Transcription>, i: nat) {
    i < |outcomes| && outcomes[i].OtherFailure?
    && forall j :: 0 <= j < i ==> !outcomes[j].OtherFailure?
  }

  /** The combined text the aggregate entry is about: the recognised texts joined by spaces, stripped. */
  function CombinedText(outcomes: seq<Transcription>): string
  {
    Strip(JoinSpace(RecognizedTexts(outcomes)))
  }

  /** The first position at or after `k` whose transcription failed with something other than `UnknownValueError`. */
  function FirstFailureFrom(outcomes: seq<Transcription>, k: nat): (r: Option<nat>)
    requires k <= |outcomes|
    ensures r.Some? ==> k <= r.value < |outcomes| && outcomes[r.value].OtherFailure?
    ensures r.Some? ==> forall j :: k <= j < r.value ==> !outcomes[j].OtherFailure?
    ensures r.None? ==> forall j :: k <= j < |outcomes| ==> !outcomes[j].OtherFailure?
    decreases |outcomes| - k
  {
    if k == |outcomes| then None
    else if outcomes[k].OtherFailure? then Some(k)
    else FirstFailureFrom(outcomes, k + 1)
  }

  /** The failure that ends the run, if any. */
  function FirstFailure(outcomes: seq<Transcription>): (r: Option<nat>)
    ensures r.Some? ==> FirstOtherFailure(outcomes, r.value)
    ensures r.None? <==> forall j :: 0 <= j < |outcomes| ==> !outcomes[j].OtherFailure?
  {
    FirstFailureFrom(outcomes, 0)
  }

  /** The first failure is unique: it is wherever FirstOtherFailure holds. */
  lemma FirstFailureUnique(outcomes: seq<Transcription>, i: nat)
    requires FirstOtherFailure(outcomes, i)
    ensures FirstFailure(outcomes) == Some(i)
  {
  }

  /** The result list and overall classification built from the recognised texts `ts`. */
  function Aggregate(ts: seq<string>, polarity: string -> real): (a: Analysis)
    ensures |a.results| == |ts| + 1
    ensures a.results[..|ts|] == Labelled(ts, polarity)
    ensures a.results[|ts|].text == a.overall.text == Strip(JoinSpace(ts))
    ensures a.results[|ts|].sentiment == a.overall.sentiment
  {
    var combined := Strip(JoinSpace(ts));
    var overall := ClassifySentiment(combined, polarity);
    var results := Labelled(ts, polarity) + [Entry(combined, overall.sentiment)];
    assert results[..|ts|] == Labelled(ts, polarity);
    Analysis(results, overall)
  }

  /**
   What the tool returns for the chunk outcomes, stated without its loop: the
   first failure other than `UnknownValueError` if there is one, otherwise the
   aggregate over the recognised texts.
   */
  function Expected(outcomes: seq<Transcription>, polarity: string -> real): (r: Result<Analysis, string>)
    ensures r.Failure? <==> exists i :: 0 <= i < |outcomes| && outcomes[i].OtherFailure?
    ensures r.Success? ==> |r.value.results| == |RecognizedTexts(outcomes)| + 1
  {
    match FirstFailure(outcomes)
    case Some(i) => Failure(outcomes[i].reason)
    case None => Success(Aggregate(RecognizedTexts(outcomes), polarity))
  }

  /**
   Read off the expected outcome: the run fails exactly when some chunk failed
   with something other than `UnknownValueError`, with the first such reason;
   otherwise every recognised chunk yields one entry labelled from its own
   text, and a final entry and the overall classification carry the stripped
   combined text and its label.
   */
  lemma ExpectedMeaning(outcomes: seq<Transcription>, polarity: string -> real)
    ensures var r := Expected(outcomes, polarity);
      && (r.Failure? <==> exists i :: 0 <= i < |outcomes| && outcomes[i].OtherFailure?)
      && (r.Failure? ==> exists i :: 0 <= i && FirstOtherFailure(outcomes, i) && r.error == outcomes[i].reason)
      && (r.Success? ==>
            var ts := RecognizedTexts(outcomes);
            var combined := Strip(JoinSpace(ts));
            && |r.value.results| == |ts| + 1
            && (forall k :: 0 <= k < |ts| ==> r.value.results[k] == Entry(ts[k], LabelOf(polarity(ts[k]))))
            && r.value.results[|ts|] == Entry(combined, LabelOf(polarity(combined)))
            && r.value.overall == Classification(LabelOf(polarity(combined)), combined))
  {
    var r := Expected(outcomes, polarity);
    if r.Success? {
      var ts := RecognizedTexts(outcomes);
      var a := r.value;
      forall k | 0 <= k < |ts|
        ensures a.results[k] == Entry(ts[k], LabelOf(polarity(ts[k])))
      {
        assert a.results[k] == a.results[..|ts|][k];
      }
    }
  }

  /** What the loop has built after the first `i` chunks, none of which failed otherwise than `UnknownValueError`. */
  ghost predicate LoopState(outcomes: seq<Transcription>, polarity: string -> real, i: nat,
                            seen: seq<string>, results: seq<Entry>, combinedText: string)
  {
    && i <= |outcomes|
    && (forall j :: 0 <= j < i ==> !outcomes[j].OtherFailure?)
    && seen == RecognizedTexts(outcomes[..i])
    && results == Labelled(seen, polarity)
    && combinedText == (if |seen| == 0 then "" else JoinSpace(seen) + " ")
  }

  /** A chunk without recognisable speech leaves everything as it was. */
  lemma SkipStep(outcomes: seq<Transcription>, polarity: string -> real, i: nat,
                 seen: seq<string>, results: seq<Entry>, combinedText: string)
    requires LoopState(outcomes, polarity, i, seen, results, combinedText)
    requires i < |outcomes| && outcomes[i].Unrecognized?
    ensures LoopState(outcomes, polarity, i + 1, seen, results, combinedText)
  {
    RecognizedTextsSnoc(outcomes[..i], outcomes[i]);
    assert outcomes[..i + 1] == outcomes[..i] + [outcomes[i]];
  }

  /** A recognised chunk adds its labelled entry and its text followed by one space. */
  lemma RecognizedStep(outcomes: seq<Transcription>, polarity: string -> real, i: nat,
                       seen: seq<string>, results: seq<Entry>, combinedText: string)
    requires LoopState(outcomes, polarity, i, seen, results, combinedText)
    requires i < |outcomes| && outcomes[i].Recognized?
    ensures var text := outcomes[i].text;
      LoopState(outcomes, polarity, i + 1, seen + [text],
                results + [Entry(text, LabelOf(polarity(text)))], combinedText + text + " ")
  {
    var text := outcomes[i].text;
    RecognizedTextsSnoc(outcomes[..i], outcomes[i]);
    assert outcomes[..i + 1] == outcomes[..i] + [outcomes[i]];
    assert results + [Entry(text, LabelOf(polarity(text)))] == Labelled(seen + [text], polarity);
    if |seen| > 0 {
      JoinSpaceSnoc(seen, text);
    } else {
      assert JoinSpace([text]) == text;
    }
  }

  /** After the last chunk, closing the list with the aggregate gives the expected outcome. */
  lemma FinalStep(outcomes: seq<Transcription>, polarity: string -> real,
                  seen: seq<string>, results: seq<Entry>, combinedText: string)
    requires LoopState(outcomes, polarity, |outcomes|, seen, results, combinedText)
    ensures var aggregate := Strip(combinedText);
      var overall := ClassifySentiment(aggregate, polarity);
      Success(Analysis(results + [Entry(aggregate, overall.sentiment)], overall)) == Expected(outcomes, polarity)
  {
    assert outcomes[..|outcomes|] == outcomes;
    if |seen| > 0 {
      StripIgnoresTrailingSpace(JoinSpace(seen));
    }
    assert FirstFailure(outcomes).None?;
  }

  /**
   The loop of `tool_transcribe_and_analyze` over the chunk outcomes, which
   computes the expected outcome above: entries are appended as recognised
   chunks arrive, the combined text is built with a trailing space after each
   text, and a failure other than `UnknownValueError` ends the loop at once.
   */
  method AnalyzeChunks(outcomes: seq<Transcription>, polarity: string -> real) returns (r: Result<Analysis, string>)
    ensures r == Expected(outcomes, polarity)
  {
    var results: seq<Entry> := [];
    var combinedText := "";
    ghost var seen: seq<string> := [];
    var i := 0;
    assert outcomes[..0] == [];
    while i < |outcomes|
      invariant LoopState(outcomes, polarity, i, seen, results, combinedText)
    {
      match outcomes[i] {
        case Unrecognized =>
          SkipStep(outcomes, polarity, i, seen, results, combinedText);
        case OtherFailure(reason) =>
          FirstFailureUnique(outcomes, i);
          return Failure(reason);
        case Recognized(text) =>
          RecognizedStep(outcomes, polarity, i, seen, results, combinedText);
          var classified := ClassifySentiment(text, polarity);
          results := results + [Entry(text, classified.sentiment)];
          combinedText := combinedText + text + " ";
          seen := seen + [text];
      }
      i := i + 1;
    }
    FinalStep(outcomes, polarity, seen, results, combinedText);
    var aggregate := Strip(combinedText);
    var overall := ClassifySentiment(aggregate, polarity);
    results := results + [Entry(aggregate, overall.sentiment)];
    return Success(Analysis(results, overall));
  }

  /**
   The whole tool: the split either failed to decode the recording or produced
   `chunkCount` chunks; each chunk's path is handed to the recogniser, then the
   outcomes are aggregated as above.
   */
  method TranscribeAndAnalyze(outputDir: string, split: Result<nat, string>,
                              transcribe: string -> Transcription, polarity: string -> real)
    returns (r: Result<Analysis, string>)
    ensures split.Failure? ==> r == Failure(split.error)
    ensures split.Success? ==>
      r == Expected(seq(split.value, k requires 0 <= k < split.value => transcribe(ChunkPath(outputDir, k + 1))), polarity)
  {
    if split.Failure? {
      return Failure(split.error);
    }
    var paths := ChunkPaths(outputDir, split.value);
    var outcomes := seq(|paths|, k requires 0 <= k < |paths| => transcribe(paths[k]));
    assert outcomes == seq(split.value, k requires 0 <= k < split.value => transcribe(ChunkPath(outputDir, k + 1)));
    r := AnalyzeChunks(outcomes, polarity);
  }

  /** With no recognised chunk the result list is the single aggregate entry over the empty text. */
  lemma {:induction false} NothingRecognized(outcomes: seq<Transcription>, polarity: string -> real)
    requires forall i :: 0 <= i < |outcomes| ==> !outcomes[i].Recognized?
    ensures RecognizedTexts(outcomes) == []
    ensures CombinedText(outcomes) == ""
    ensures (forall i :: 0 <= i < |outcomes| ==> !outcomes[i].OtherFailure?) ==>
      var l := LabelOf(polarity(""));
      Expected(outcomes, polarity) == Success(Analysis([Entry("", l)], Classification(l, "")))
  {
    if |outcomes| > 0 {
      NothingRecognized(outcomes[..|outcomes| - 1], polarity);
    }
    assert |Strip("")| == 0;
    ExpectedMeaning(outcomes, polarity);
  }

  /** Three chunks, the middle one without recognisable speech: two texts survive, joined by one space. */
  lemma MiddleChunkUnrecognized(a: string, b: string)
    requires NoOuterSpace(a) && NoOuterSpace(b) && |a| > 0 && |b| > 0
    ensures RecognizedTexts([Recognized(a), Unrecognized, Recognized(b)]) == [a, b]
    ensures CombinedText([Recognized(a), Unrecognized, Recognized(b)]) == a + " " + b
  {
    MiddleChunkTexts(a, b);
    JoinPairStripped(a, b);
  }

  /** Lemma helper: the texts kept from the three chunks. */
  lemma MiddleChunkTexts(a: string, b: string)
    ensures RecognizedTexts([Recognized(a), Unrecognized, Recognized(b)]) == [a, b]
  {
    RecognizedTextsSnoc([], Recognized(a));
    assert [] + [Recognized(a)] == [Recognized(a)];
    RecognizedTextsSnoc([Recognized(a)], Unrecognized);
    assert [Recognized(a)] + [Unrecognized] == [Recognized(a), Unrecognized];
    RecognizedTextsSnoc([Recognized(a), Unrecognized], Recognized(b));
    assert [Recognized(a), Unrecognized] + [Recognized(b)] == [Recognized(a), Unrecognized, Recognized(b)];
  }

  /** Lemma helper: two texts without outer whitespace, joined, are left alone by `strip()`. */
  lemma JoinPairStripped(a: string, b: string)
    requires NoOuterSpace(a) && NoOuterSpace(b) && |a| > 0 && |b| > 0
    ensures Strip(JoinSpace([a, b])) == a + " " + b
  {
    assert [a, b][1..] == [b];
    var j := a + " " + b;
    assert JoinSpace([a, b]) == j;
    assert j[0..|j|] == j;
    assert j[0] == a[0] && j[|j| - 1] == b[|b| - 1];
    StripCharacterization(j, 0, |j|);
  }
}

=== FILE: record_pattern.dfy ===
/**
 The record pattern of the HTTP endpoint,

     \*\*Text:\*\*\s*"(.*?)"\s*\*\*Sentiment:\*\*\s*(\w+)     (DOTALL)

 and the way Python's `re` engine applies it. `Parse` says declaratively which
 index choices the pattern can match; `MatchAt` computes the one the
 backtracking engine picks at a position (the lazy group closes at the first
 quote that lets the rest match, `\w+` takes the longest run), `Search` is
 `pattern.search` and `FindAll` is `pattern.finditer`.
 */
module RecordPattern {
  import opened Wrappers
  import opened Text

  const TextTag: string := "**Text:**"
  const SentimentTag: string := "**Sentiment:**"

  /**
   One match: it starts at `start`, group 1 is `s[textStart..textEnd]` (the
   closing quote is at `textEnd`), the sentiment tag is at `tagAt`, and group 2
   is `s[wordStart..end]`, which is also where the match ends.
   */
  datatype RecordMatch = RecordMatch(start: nat, textStart: nat, textEnd: nat, tagAt: nat, wordStart: nat, end: nat)

  /** `s[i..j]` is a non-empty run of word characters: group 2 of the pattern. */
  ghost predicate Words(s: string, i: int, j: int) {
    0 <= i < j <= |s| && IsWord(s[i..j])
  }

  /** `\*\*Text:\*\*\s*"` matches from `p`, and group 1 begins at `a`. */
  ghost predicate HeadParse(s: string, p: nat, a: nat) {
    HasPrefixAt(s, p, TextTag) && p + |TextTag| < a <= |s|
    && Spaces(s, p + |TextTag|, a - 1) && s[a - 1] == '"'
  }

  /** `"\s*\*\*Sentiment:\*\*\s*(\w+)` matches from the quote at `q`, with the tag at `k` and group 2 `s[w..e]`. */
  ghost predicate TailParse(s: string, q: nat, k: nat, w: nat, e: nat) {
    q < |s| && s[q] == '"' && Spaces(s, q + 1, k) && HasPrefixAt(s, k, SentimentTag)
    && Spaces(s, k + |SentimentTag|, w) && Words(s, w, e)
  }

  /** The whole pattern matches `s[p..e]` with these group boundaries. */
  ghost predicate Parse(s: string, p: nat, a: nat, q: nat, k: nat, w: nat, e: nat) {
    HeadParse(s, p, a) && a <= q && TailParse(s, q, k, w, e)
  }

  /** Some match of the pattern starts at `p`. */
  ghost predicate MatchesAt(s: string, p: nat) {
    exists a: nat, q: nat, k: nat, w: nat, e: nat :: Parse(s, p, a, q, k, w, e)
  }

  /** The end of the longest run of word characters starting at `i`. */
  function WordEnd(s: string, i: nat): (k: nat)
    requires i <= |s|
    ensures i <= k <= |s|
    ensures forall j :: i <= j < k ==> IsWordChar(s[j])
    ensures k == |s| || !IsWordChar(s[k])
    decreases |s| - i
  {
    if i == |s| || !IsWordChar(s[i]) then i else WordEnd(s, i + 1)
  }

  /** Where the tag and the word of a tail match lie. */
  datatype Tail = Tail(tagAt: nat, wordStart: nat, end: nat)

  /** In a tail match the whitespace runs are forced and group 2 fits inside the longest word run. */
  lemma TailForced(s: string, q: nat)
    requires q < |s|
    ensures forall k: nat, w: nat, e: nat :: TailParse(s, q, k, w, e) ==>
      && k == FirstNonSpace(s, q + 1)
      && w == FirstNonSpace(s, k + |SentimentTag|)
      && e <= WordEnd(s, w)
      && w < WordEnd(s, w)
  {
    forall k: nat, w: nat, e: nat | TailParse(s, q, k, w, e)
      ensures k == FirstNonSpace(s, q + 1)
      ensures w == FirstNonSpace(s, k + |SentimentTag|)
      ensures e <= WordEnd(s, w) && w < WordEnd(s, w)
    {
      assert s[k] == s[k..k + |SentimentTag|][0] == '*';
      SpaceRunUnique(s, q + 1, k);
      assert IsWordChar(s[w]);
      SpaceRunUnique(s, k + |SentimentTag|, w);
    }
  }

  /** The tail of the pattern tried at the quote `q`. */
  function MatchTail(s: string, q: nat): (r: Option<Tail>)
    ensures r.Some? ==> q < r.value.tagAt < r.value.wordStart < r.value.end <= |s|
  {
    if q < |s| && s[q] == '"' then
      var k := FirstNonSpace(s, q + 1);
      if HasPrefixAt(s, k, SentimentTag) then
        var w := FirstNonSpace(s, k + |SentimentTag|);
        var e := WordEnd(s, w);
        if w < e then Some(Tail(k, w, e)) else None
      else None
    else None
  }

  /**
   The tail succeeds exactly when some tail parse exists at `q`, and then
   group 2 is the longest word run there.
   */
  lemma MatchTailCorrect(s: string, q: nat)
    ensures MatchTail(s, q).Some? ==>
      var t := MatchTail(s, q).value;
      TailParse(s, q, t.tagAt, t.wordStart, t.end) && (t.end == |s| || !IsWordChar(s[t.end]))
    ensures MatchTail(s, q).None? ==> forall k: nat, w: nat, e: nat :: !TailParse(s, q, k, w, e)
  {
    if q < |s| && s[q] == '"' {
      TailForced(s, q);
    }
  }

  /**
   The lazy `(.*?)` of a match that began at `p` with group 1 opening at `a`:
   try each quote from `q` on, and close at the first one whose tail matches.
   */
  function Close(s: string, p: nat, a: nat, q: nat): (r: Option<RecordMatch>)
    ensures r.Some? ==> r.value.start == p && r.value.textStart == a && q <= r.value.textEnd
    ensures r.Some? ==> r.value.textEnd < r.value.tagAt < r.value.wordStart < r.value.end <= |s|
    decreases |s| - q
  {
    if q >= |s| then None
    else
      match MatchTail(s, q)
      case Some(t) => Some(RecordMatch(p, a, q, t.tagAt, t.wordStart, t.end))
      case None => Close(s, p, a, q + 1)
  }

  /** When `Close` fails, no quote from `q` on has a matching tail. */
  lemma {:induction false} CloseNone(s: string, p: nat, a: nat, q: nat)
    requires Close(s, p, a, q).None?
    ensures forall j: nat, k: nat, w: nat, e: nat :: q <= j ==> !TailParse(s, j, k, w, e)
    decreases |s| - q
  {
    if q < |s| {
      MatchTailCorrect(s, q);
      CloseNone(s, p, a, q + 1);
    }
  }

  /**
   When `Close` succeeds it stops at the first quote from `q` on whose tail
   matches, and group 2 there is a longest word run.
   */
  lemma CloseSome(s: string, p: nat, a: nat, q: nat)
    requires Close(s, p, a, q).Some?
    ensures
      var m := Close(s, p, a, q).value;
      && TailParse(s, m.textEnd, m.tagAt, m.wordStart, m.end)
      && (m.end == |s| || !IsWordChar(s[m.end]))
      && (forall j: nat, k: nat, w: nat, e: nat :: q <= j < m.textEnd ==> !TailParse(s, j, k, w, e))
  {
    var m := Close(s, p, a, q).value;
    CloseHit(s, p, a, q);
    MatchTailCorrect(s, m.textEnd);
    forall j: nat, k: nat, w: nat, e: nat | q <= j < m.textEnd
      ensures !TailParse(s, j, k, w, e)
    {
      MatchTailCorrect(s, j);
    }
  }

  /**
   Lemma helper: `Close` stops at the first quote from `q` on whose tail the
   engine matches, and the match it returns is that tail's.
   */
  lemma {:induction false} CloseHit(s: string, p: nat, a: nat, q: nat)
    requires Close(s, p, a, q).Some?
    ensures
      var m := Close(s, p, a, q).value;
      && MatchTail(s, m.textEnd) == Some(Tail(m.tagAt, m.wordStart, m.end))
      && (forall j :: q <= j < m.textEnd ==> MatchTail(s, j).None?)
    decreases |s| - q
  {
    CloseStep(s, p, a, q);
    if MatchTail(s, q).None? {
      CloseHit(s, p, a, q + 1);
      var m := Close(s, p, a, q + 1).value;
      forall j | q <= j < m.textEnd
        ensures MatchTail(s, j).None?
      {
        if j != q {
          assert q + 1 <= j < m.textEnd;
        }
      }
    }
  }

  /** Lemma helper: one step of `Close`, at a position inside the string. */
  lemma CloseStep(s: string, p: nat, a: nat, q: nat)
    requires Close(s, p, a, q).Some?
    ensures q < |s|
    ensures MatchTail(s, q).None? ==> Close(s, p, a, q) == Close(s, p, a, q + 1)
    ensures MatchTail(s, q).Some? ==>
      var t := MatchTail(s, q).value;
      Close(s, p, a, q) == Some(RecordMatch(p, a, q, t.tagAt, t.wordStart, t.end))
  {
  }

  /** The opening whitespace run is forced as well. */
  lemma HeadForced(s: string, p: nat)
    requires HasPrefixAt(s, p, TextTag)
    ensures forall a: nat :: HeadParse(s, p, a) ==> a == FirstNonSpace(s, p + |TextTag|) + 1
  {
    forall a: nat | HeadParse(s, p, a)
      ensures a == FirstNonSpace(s, p + |TextTag|) + 1
    {
      SpaceRunUnique(s, p + |TextTag|, a - 1);
    }
  }

  /** The match Python's engine finds when it tries the pattern at `p`, if any. */
  function MatchAt(s: string, p: nat): (r: Option<RecordMatch>)
    ensures r.Some? ==> r.value.start == p < r.value.textStart <= r.value.textEnd < r.value.wordStart < r.value.end <= |s|
  {
    if HasPrefixAt(s, p, TextTag) then
      var o := FirstNonSpace(s, p + |TextTag|);
      if o < |s| && s[o] == '"' then Close(s, p, o + 1, o + 1) else None
    else None
  }

  /** Whenever the pattern can match at `p`, the engine finds a match there. */
  lemma MatchAtComplete(s: string, p: nat, a: nat, q: nat, k: nat, w: nat, e: nat)
    requires Parse(s, p, a, q, k, w, e)
    ensures MatchAt(s, p).Some?
  {
    assert HeadParse(s, p, a) && a <= q && TailParse(s, q, k, w, e);
    HeadOpens(s, p, a);
    if Close(s, p, a, a).None? {
      CloseNone(s, p, a, a);
    }
  }

  /** Lemma helper: after a head parse opening group 1 at `a`, the engine goes on by closing from `a`. */
  lemma HeadOpens(s: string, p: nat, a: nat)
    requires HeadParse(s, p, a)
    ensures MatchAt(s, p) == Close(s, p, a, a)
  {
    HeadForced(s, p);
    var o := FirstNonSpace(s, p + |TextTag|);
    assert a == o + 1;
    assert o < |s| && s[o] == '"';
  }

  /** A match the engine finds is a parse with the shortest group 1 and the longest group 2. */
  lemma MatchAtSound(s: string, p: nat)
    requires MatchAt(s, p).Some?
    ensures
      var m := MatchAt(s, p).value;
      && Parse(s, p, m.textStart, m.textEnd, m.tagAt, m.wordStart, m.end)
      && (m.end == |s| || !IsWordChar(s[m.end]))
      && (forall j: nat, k: nat, w: nat, e: nat :: m.textStart <= j < m.textEnd ==> !TailParse(s, j, k, w, e))
  {
    var o := FirstNonSpace(s, p + |TextTag|);
    assert HasPrefixAt(s, p, TextTag) && o < |s| && s[o] == '"';
    assert MatchAt(s, p) == Close(s, p, o + 1, o + 1);
    CloseSome(s, p, o + 1, o + 1);
    assert HeadParse(s, p, o + 1);
  }

  /**
   `MatchAt` is what the engine does: a match is found exactly when the pattern
   can match at `p` at all, and it is the one whose group 1 is shortest and
   whose group 2 is longest.
   */
  lemma MatchAtCorrect(s: string, p: nat)
    ensures MatchAt(s, p).Some? <==> MatchesAt(s, p)
    ensures MatchAt(s, p).Some? ==>
      var m := MatchAt(s, p).value;
      && Parse(s, p, m.textStart, m.textEnd, m.tagAt, m.wordStart, m.end)
      && (m.end == |s| || !IsWordChar(s[m.end]))
      && (forall j: nat, k: nat, w: nat, e: nat :: m.textStart <= j < m.textEnd ==> !TailParse(s, j, k, w, e))
  {
    if MatchAt(s, p).Some? {
      MatchAtSound(s, p);
    } else {
      forall a: nat, q: nat, k: nat, w: nat, e: nat
        ensures !Parse(s, p, a, q, k, w, e)
      {
        if Parse(s, p, a, q, k, w, e) {
          MatchAtComplete(s, p, a, q, k, w, e);
        }
      }
    }
  }

  /** The engine finds no match starting anywhere in `[lo, hi)`. */
  ghost predicate NoMatchIn(s: string, lo: nat, hi: nat) {
    forall q: nat :: lo <= q < hi ==> MatchAt(s, q).None?
  }

  /** The engine finds no match starting at `lo` or later. */
  ghost predicate NoMatchFrom(s: string, lo: nat) {
    forall q: nat :: lo <= q ==> MatchAt(s, q).None?
  }

  /** Where the engine finds no match, the pattern cannot match at all. */
  lemma NoMatchMeansNoParse(s: string, lo: nat, hi: nat)
    requires NoMatchIn(s, lo, hi)
    ensures forall q: nat :: lo <= q < hi ==> !MatchesAt(s, q)
  {
    forall q: nat | lo <= q < hi
      ensures !MatchesAt(s, q)
    {
      MatchAtCorrect(s, q);
    }
  }

  /** No match can start at the end of the string. */
  lemma NoMatchPastEnd(s: string, pos: nat)
    requires |s| <= pos
    ensures NoMatchFrom(s, pos)
  {
  }

  /** `pattern.search(s, pos)`: the first match the engine finds trying `pos`, `pos + 1`, and so on. */
  function Search(s: string, pos: nat): (r: Option<RecordMatch>)
    ensures r.Some? ==> pos <= r.value.start && MatchAt(s, r.value.start) == r
    decreases |s| - pos
  {
    if pos >= |s| then None
    else
      match MatchAt(s, pos)
      case Some(m) => Some(m)
      case None => Search(s, pos + 1)
  }

  /** The search returns the leftmost match: none starts between `pos` and it, nor anywhere when it fails. */
  lemma {:induction false} SearchLeftmost(s: string, pos: nat)
    ensures Search(s, pos).Some? ==> NoMatchIn(s, pos, Search(s, pos).value.start)
    ensures Search(s, pos).None? ==> NoMatchFrom(s, pos)
    decreases |s| - pos
  {
    if pos >= |s| {
      NoMatchPastEnd(s, pos);
    } else if MatchAt(s, pos).None? {
      SearchLeftmost(s, pos + 1);
      assert Search(s, pos) == Search(s, pos + 1);
    }
  }

  /** Trying the pattern at `m.start` yields exactly `m`. */
  predicate Found(s: string, m: RecordMatch) {
    MatchAt(s, m.start) == Some(m)
  }

  /**
   `pattern.finditer(s, pos)`: matches from left to right, each search resuming
   where the previous match ended.
   */
  function FindAll(s: string, pos: nat): (ms: seq<RecordMatch>)
    ensures forall i :: 0 <= i < |ms| ==> pos <= ms[i].start && Found(s, ms[i])
    ensures forall i :: 0 <= i < |ms| - 1 ==> ms[i].end <= ms[i + 1].start
    decreases |s| - pos
  {
    match Search(s, pos)
    case None => []
    case Some(m) =>
      assert Found(s, m) && pos <= m.start < m.end;
      var rest := FindAll(s, m.end);
      var ms := [m] + rest;
      assert ms[0] == m;
      assert forall i :: 0 < i < |ms| ==> ms[i] == rest[i - 1];
      ms
  }

  /** No match starts before the first one found, and none at all when nothing is found. */
  lemma FindAllFirst(s: string, pos: nat)
    ensures |FindAll(s, pos)| == 0 ==> NoMatchFrom(s, pos)
    ensures |FindAll(s, pos)| > 0 ==> NoMatchIn(s, pos, FindAll(s, pos)[0].start)
  {
    SearchLeftmost(s, pos);
  }

  /** No match starts after the end of the last one found. */
  lemma {:induction false} FindAllLast(s: string, pos: nat)
    requires |FindAll(s, pos)| > 0
    ensures NoMatchFrom(s, FindAll(s, pos)[|FindAll(s, pos)| - 1].end)
    decreases |s| - pos
  {
    var m := Search(s, pos).value;
    var rest := FindAll(s, m.end);
    var ms := FindAll(s, pos);
    assert ms == [m] + rest;
    var last := ms[|ms| - 1];
    if |rest| == 0 {
      assert last == m;
      FindAllFirst(s, m.end);
    } else {
      assert last == rest[|rest| - 1];
      FindAllLast(s, m.end);
    }
    assert NoMatchFrom(s, last.end);
  }

  /** No match starts between the end of one match found and the start of the next. */
  lemma {:induction false} FindAllGaps(s: string, pos: nat)
    ensures forall i :: 0 <= i < |FindAll(s, pos)| - 1 ==>
      NoMatchIn(s, FindAll(s, pos)[i].end, FindAll(s, pos)[i + 1].start)
    decreases |s| - pos
  {
    var ms := FindAll(s, pos);
    if |ms| > 1 {
      var m := Search(s, pos).value;
      var rest := FindAll(s, m.end);
      assert ms == [m] + rest;
      FindAllFirst(s, m.end);
      FindAllGaps(s, m.end);
      forall i | 0 <= i < |ms| - 1
        ensures NoMatchIn(s, ms[i].end, ms[i + 1].start)
      {
        if i > 0 {
          assert ms[i] == rest[i - 1] && ms[i + 1] == rest[i];
        }
      }
    }
  }
}

=== FILE: sentiment.dfy ===
/**
 The three-way sentiment label of `tool_classify_sentiment`. The polarity score
 comes from a lexicon library outside this model, so it is passed in as a
 function from text to a real number.
 */
module Sentiment {

  /** The closed set of labels the classifier can produce. */
  datatype Label = Positive | Negative | Neutral

  /** The label as the tool spells it in its result dictionary. */
  function LabelName(l: Label): (n: string)
    ensures n == "positive" <==> l == Positive
    ensures n == "negative" <==> l == Negative
    ensures n == "neutral" <==> l == Neutral
  {
    match l
    case Positive => "positive"
    case Negative => "negative"
    case Neutral => "neutral"
  }

  /** Label by the strict sign of the polarity score. */
  function LabelOf(polarity: real): (l: Label)
    ensures l == Positive <==> polarity > 0.0
    ensures l == Negative <==> polarity < 0.0
    ensures l == Neutral <==> polarity == 0.0
  {
    if polarity > 0.0 then Positive
    else if polarity < 0.0 then Negative
    else Neutral
  }

  /** The tool's result: the label and the text it was computed from. */
  datatype Classification = Classification(sentiment: Label, text: string)

  /** `tool_classify_sentiment(text)`, with the lexicon's polarity as a parameter. */
  function ClassifySentiment(text: string, polarity: string -> real): (c: Classification)
    ensures c.text == text
    ensures c.sentiment == Positive <==> polarity(text) > 0.0
    ensures c.sentiment == Negative <==> polarity(text) < 0.0
    ensures c.sentiment == Neutral <==> polarity(text) == 0.0
  {
    Classification(LabelOf(polarity(text)), text)
  }

  /** Different labels are spelled differently, so the spelling loses nothing. */
  lemma LabelNameInjective(l: Label, m: Label)
    requires LabelName(l) == LabelName(m)
    ensures l == m
  {
  }
}

=== FILE: text.dfy ===
/**
 The handful of Python `str` operations the pipeline relies on, over `seq<char>`.
 Character classes are the ASCII ones: whitespace is the ten ASCII characters
 Python's `str.isspace()` accepts, which is what both `str.strip()` and the
 regex class `\s` of a `str` pattern use, and a word character is `[A-Za-z0-9_]`.
 */
module Text {

  /**
   ASCII whitespace as Python sees it: space, the five characters from tab to
   carriage return (tab, line feed, vertical tab, form feed, carriage return),
   and the four information separators U+001C to U+001F.
   */
  predicate IsSpace(c: char) {
    c == ' ' || ('\t' <= c <= '\r') || ('\U{001C}' <= c <= '\U{001F}')
  }

  /** The regex class `\w` restricted to ASCII. */
  predicate IsWordChar(c: char) {
    ('a' <= c <= 'z') || ('A' <= c <= 'Z') || ('0' <= c <= '9') || c == '_'
  }

  /** `s[i..j]` consists of whitespace only. */
  ghost predicate Spaces(s: string, i: int, j: int) {
    0 <= i <= j <= |s| && forall k :: i <= k < j ==> IsSpace(s[k])
  }

  /** `s` is non-empty and consists of word characters only (the regex `\w+`). */
  ghost predicate IsWord(s: string) {
    |s| > 0 && forall k :: 0 <= k < |s| ==> IsWordChar(s[k])
  }

  /** `lit` occurs in `s` starting at index `i`. */
  predicate HasPrefixAt(s: string, i: nat, lit: string) {
    i + |lit| <= |s| && s[i..i + |lit|] == lit
  }

  /** `s` ends with `suffix` (Python's `str.endswith`). */
  predicate EndsWith(s: string, suffix: string) {
    |suffix| <= |s| && s[|s| - |suffix|..] == suffix
  }

  /** The end of the longest whitespace run starting at `i`: what a greedy `\s*` consumes. */
  function FirstNonSpace(s: string, i: nat): (k: nat)
    requires i <= |s|
    ensures i <= k <= |s|
    ensures Spaces(s, i, k)
    ensures k == |s| || !IsSpace(s[k])
    decreases |s| - i
  {
    if i == |s| || !IsSpace(s[i]) then i else FirstNonSpace(s, i + 1)
  }

  /** The start of the longest whitespace run ending at `j`. */
  function LastNonSpaceEnd(s: string, j: nat): (k: nat)
    requires j <= |s|
    ensures k <= j
    ensures Spaces(s, k, j)
    ensures k == 0 || !IsSpace(s[k - 1])
    decreases j
  {
    if j == 0 || !IsSpace(s[j - 1]) then j else LastNonSpaceEnd(s, j - 1)
  }

  /** `s` neither starts nor ends with whitespace. */
  predicate NoOuterSpace(s: string) {
    |s| == 0 || (!IsSpace(s[0]) && !IsSpace(s[|s| - 1]))
  }

  /** Lemma helper: the whitespace run starting at `i` is unique. */
  lemma SpaceRunUnique(s: string, i: nat, k: nat)
    requires i <= k <= |s|
    requires Spaces(s, i, k)
    requires k == |s| || !IsSpace(s[k])
    ensures FirstNonSpace(s, i) == k
  {
  }

  /** Python's `str.strip()`: drop leading and trailing whitespace. */
  function Strip(s: string): (r: string)
    ensures |r| <= |s|
    ensures NoOuterSpace(r)
  {
    var a := FirstNonSpace(s, 0);
    var b := LastNonSpaceEnd(s, |s|);
    if b <= a then [] else s[a..b]
  }

  /** The information separators U+001C to U+001F count as whitespace, so `strip()` removes them. */
  lemma StripSeparators(a: char, b: char)
    requires '\U{001C}' <= a <= '\U{001F}' && '\U{001C}' <= b <= '\U{001F}'
    ensures Strip([a, 'x', b]) == "x"
  {
    StripCharacterization([a, 'x', b], 1, 2);
  }

  /** Strip removes whitespace only, and only at the two ends. */
  lemma StripRemovesOnlySpace(s: string) returns (a: nat)
    ensures a + |Strip(s)| <= |s|
    ensures s[a..a + |Strip(s)|] == Strip(s)
    ensures Spaces(s, 0, a) && Spaces(s, a + |Strip(s)|, |s|)
  {
    a := FirstNonSpace(s, 0);
    var b := LastNonSpaceEnd(s, |s|);
    if b <= a {
      assert a == |s|;
      a := 0;
    }
  }

  /** Lemma helper: the whitespace run ending at `j` is unique. */
  lemma SpaceRunEndUnique(s: string, k: nat, j: nat)
    requires k <= j <= |s|
    requires Spaces(s, k, j)
    requires k == 0 || !IsSpace(s[k - 1])
    ensures LastNonSpaceEnd(s, j) == k
  {
  }

  /** Strip is determined by where the non-whitespace text begins and ends. */
  lemma StripCharacterization(s: string, a: nat, b: nat)
    requires a <= b <= |s|
    requires Spaces(s, 0, a) && Spaces(s, b, |s|)
    requires NoOuterSpace(s[a..b])
    ensures Strip(s) == s[a..b]
  {
    if a == b {
      assert Spaces(s, 0, |s|);
      SpaceRunUnique(s, 0, |s|);
    } else {
      assert s[a] == s[a..b][0] && s[b - 1] == s[a..b][b - a - 1];
      SpaceRunUnique(s, 0, a);
      SpaceRunEndUnique(s, b, |s|);
    }
  }

  /** Trailing whitespace added to a string is removed again by Strip. */
  lemma StripIgnoresTrailingSpace(s: string)
    ensures Strip(s + " ") == Strip(s)
  {
    var t := s + " ";
    var r := Strip(s);
    var a := StripRemovesOnlySpace(s);
    assert t[a..a + |r|] == r;
    assert Spaces(t, 0, a) by {
      forall k | 0 <= k < a ensures IsSpace(t[k]) { assert t[k] == s[k]; }
    }
    assert Spaces(t, a + |r|, |t|) by {
      forall k | a + |r| <= k < |t| ensures IsSpace(t[k]) {
        if k < |s| { assert t[k] == s[k]; }
      }
    }
    StripCharacterization(t, a, a + |r|);
  }

  /** ASCII lower-casing of one character. */
  function LowerChar(c: char): char {
    if 'A' <= c <= 'Z' then (c as int - 'A' as int + 'a' as int) as char else c
  }

  /** ASCII upper-casing of one character. */
  function UpperChar(c: char): char {
    if 'a' <= c <= 'z' then (c as int - 'a' as int + 'A' as int) as char else c
  }

  /** Python's `str.lower()` on ASCII letters. */
  function Lower(s: string): (r: string)
    ensures |r| == |s|
    ensures forall i :: 0 <= i < |s| ==> r[i] == LowerChar(s[i])
  {
    seq(|s|, i requires 0 <= i < |s| => LowerChar(s[i]))
  }

  /** Lower-casing twice is lower-casing once. */
  lemma LowerIdempotent(s: string)
    ensures Lower(Lower(s)) == Lower(s)
  {
    var l := Lower(s);
    assert forall i :: 0 <= i < |s| ==> Lower(l)[i] == l[i];
  }

  /** Python's `str.capitalize()` on ASCII letters: first character upper case, the rest lower case. */
  function Capitalize(s: string): (r: string)
    ensures |r| == |s|
    ensures |s| > 0 ==> r[0] == UpperChar(s[0]) && r[1..] == Lower(s[1..])
  {
    if |s| == 0 then [] else [UpperChar(s[0])] + Lower(s[1..])
  }

  /** `s.replace('\n', ' ')`. */
  function ReplaceNewlines(s: string): (r: string)
    ensures |r| == |s|
    ensures forall i :: 0 <= i < |s| ==> r[i] == (if s[i] == '\n' then ' ' else s[i])
  {
    seq(|s|, i requires 0 <= i < |s| => if s[i] == '\n' then ' ' else s[i])
  }

  /** `" ".join(ts)`: the strings of `ts` in order, separated by single spaces. */
  function JoinSpace(ts: seq<string>): (r: string)
    ensures |ts| == 1 ==> r == ts[0]
    ensures |ts| > 1 ==> ts[0] + " " <= r
  {
    if |ts| == 0 then ""
    else if |ts| == 1 then ts[0]
    else ts[0] + " " + JoinSpace(ts[1..])
  }

  /** Total number of characters in `ts`. */
  function TotalLength(ts: seq<string>): nat
  {
    if |ts| == 0 then 0 else |ts[0]| + TotalLength(ts[1..])
  }

  /** Joining adds exactly one separator between neighbours. */
  lemma {:induction false} JoinSpaceLength(ts: seq<string>)
    requires |ts| > 0
    ensures |JoinSpace(ts)| == TotalLength(ts) + |ts| - 1
  {
    if |ts| > 1 {
      JoinSpaceLength(ts[1..]);
    }
  }

  /** Appending one more string to a non-empty join adds a separator and that string. */
  lemma {:induction false} JoinSpaceSnoc(ts: seq<string>, t: string)
    requires |ts| > 0
    ensures JoinSpace(ts + [t]) == JoinSpace(ts) + " " + t
  {
    if |ts| == 1 {
      assert ts + [t] == [ts[0], t];
      assert (ts + [t])[1..] == [t];
    } else {
      assert (ts + [t])[1..] == ts[1..] + [t];
      JoinSpaceSnoc(ts[1..], t);
    }
  }

  /** The decimal digit for `d`. */
  function Digit(d: nat): char
    requires d < 10
  {
    "0123456789"[d]
  }

  predicate IsDigit(c: char) {
    '0' <= c <= '9'
  }

  /** Python's `f"{n}"` for a non-negative integer: decimal, no leading zeros. */
  function DecimalDigits(n: nat): (r: string)
    ensures |r| > 0
    ensures forall i :: 0 <= i < |r| ==> IsDigit(r[i])
    ensures |r| > 1 ==> r[0] != '0'
  {
    if n < 10 then [Digit(n)] else DecimalDigits(n / 10) + [Digit(n % 10)]
  }

  /** The value of one decimal digit. */
  function DigitValue(c: char): nat
    requires IsDigit(c)
  {
    c as int - '0' as int
  }

  /** The value of a digit string, most significant digit first. */
  function ParseDecimal(s: string): nat
    requires forall i :: 0 <= i < |s| ==> IsDigit(s[i])
  {
    if |s| == 0 then 0 else 10 * ParseDecimal(s[..|s| - 1]) + DigitValue(s[|s| - 1])
  }

  /** Reading back the decimal rendering of `n` gives `n`. */
  lemma {:induction false} DecimalRoundTrip(n: nat)
    ensures ParseDecimal(DecimalDigits(n)) == n
  {
    var r := DecimalDigits(n);
    if n < 10 {
      assert r[..0] == [];
      assert DigitValue(r[0]) == n by {
        assert "0123456789"[n] as int == '0' as int + n;
      }
    } else {
      var d := DecimalDigits(n / 10);
      assert r[..|r| - 1] == d;
      DecimalRoundTrip(n / 10);
      assert DigitValue(r[|r| - 1]) == n % 10 by {
        assert "0123456789"[n % 10] as int == '0' as int + n % 10;
      }
    }
  }

  /** Distinct numbers have distinct decimal renderings. */
  lemma DecimalInjective(m: nat, n: nat)
    requires DecimalDigits(m) == DecimalDigits(n)
    ensures m == n
  {
    DecimalRoundTrip(m);
    DecimalRoundTrip(n);
  }

  /** POSIX `os.path.join(dir, name)`: an absolute `name` wins; otherwise one `/` separates them. */
  function PathJoin(dir: string, name: string): (r: string)
    ensures EndsWith(r, name)
    ensures (|name| > 0 && name[0] == '/') ==> r == name
    ensures (|name| == 0 || name[0] != '/') ==>
      && dir <= r
      && |dir| + |name| <= |r| <= |dir| + |name| + 1
      && (|r| > |dir| + |name| ==> r[|dir|] == '/')
  {
    if |name| > 0 && name[0] == '/' then name
    else if |dir| == 0 || dir[|dir| - 1] == '/' then dir + name
    else dir + "/" + name
  }

  /** Under one directory, relative names stay distinct after joining. */
  lemma PathJoinInjective(dir: string, x: string, y: string)
    requires |x| > 0 && x[0] != '/' && |y| > 0 && y[0] != '/'
    requires PathJoin(dir, x) == PathJoin(dir, y)
    ensures x == y
  {
    var p := if |dir| == 0 || dir[|dir| - 1] == '/' then dir else dir + "/";
    assert PathJoin(dir, x) == p + x && PathJoin(dir, y) == p + y;
    assert x == (p + x)[|p|..] && y == (p + y)[|p|..];
  }
}

=== FILE: wrappers.dfy ===
/** Failure-carrying datatypes shared by the rest of the model. */
module Wrappers {

  /** A value that may be absent, like a regex `match` object or `None`. */
  datatype Option<+T> = None | Some(value: T)

  /** The outcome of a computation that either returns a value or raises. */
  datatype Result<+R, +E> = Success(value: R) | Failure(error: E)
}
